=== FILE: README.md ===
# SOLID exercises: payroll and client registry, modelled in Dafny

This project models the two exercises of the repository that have logic of their own.

**Payroll (`tarefa-1`).** Employees (`Colaborador`) are mutable objects compared by reference.
The model keeps them in an explicit heap, `Equipe`, which maps a `Handle` (the reference) to the
employee's fields `nome`, `cargo` and `saldo`.

- The roster (`QuadroColaboradores`) is an ordered array of handles plus a base salary.
  - `contratar` pushes onto the roster's array in place.
  - `demitir` replaces the array with a filtered copy.
  - The model keeps every array the roster has allocated, indexed by `ArrayRef`. This makes the
    aliasing of the `colaboradores` getter visible. A reference taken from the getter sees the
    hires made after it was taken, until the next firing. It never sees a firing, and after a
    firing it sees nothing later, because the roster has moved to a new array.
- The payment processor (`Pagamento.pagar`) overwrites one employee's balance with the salary
  for that employee's role.
- The report generator (`GerarRelatorio.gerarJSON`) holds an array reference and projects it
  onto `{nome, cargo, salario}` entries.
- The salary calculator is a total function `Cargo -> int` that is passed in. Its table is not
  modelled.

**Client registry (`tarefa-5`).** There are two stores behind the `IClienteRepository` interface.

- `InMemoryRepository` is an append-only sequence.
- `PostgresRepository` is an in-memory map keyed by client id, where the last write wins. Its
  `list` visits the keys in an order the model leaves open, chosen nondeterministically.
- `ClienteController` forwards to whichever store it was given.
- The interface has exactly these two implementations, so it is modelled as the sum datatype
  `ClienteRepository.ClienteRepository`. Each operation dispatches on the variant. The
  per-implementation promises are stated once for each operation, in
  `ClienteRepository.AdicaoDoRepositorio` (add) and `ClienteRepository.ListaDoRepositorio`
  (list), and carried through the controller.

All state is immutable values: each operation returns the new state. So listing and reporting
cannot change the stores, the roster or any employee.

`contratar` has no duplicate check, so hiring the same employee twice adds a second occurrence
(`QuadroColaboradores.Contratar`).

## Model

| member | source | states |
|---|---|---|
| Colaborador.NovoColaborador | tarefa-1/main.ts:16-18 | a new employee has the given name and role and a zero balance |
| QuadroColaboradores.Remove | tarefa-1/QuadroColaboradores.ts:17-19 | the filter by reference: no entry equal to the handle survives, every other handle keeps its multiplicity, and the length drops by the number of removed occurrences |
| QuadroColaboradores.Novo | tarefa-1/QuadroColaboradores.ts:7-10 | a new roster is empty and keeps the given base salary (1000 by default) |
| QuadroColaboradores.Contratar | tarefa-1/QuadroColaboradores.ts:12-14 | hiring adds one element, the new employee is last, the prefix is unchanged, a second hire of the same employee adds a second occurrence, the base salary is unchanged, and the array reference stays the same (in place) |
| QuadroColaboradores.Demitir | tarefa-1/QuadroColaboradores.ts:16-20 | after firing, no entry is the fired handle; every other handle keeps its membership and multiplicity; firing an absent employee leaves the list's contents unchanged (a new array is still allocated); the survivors keep their relative order (the list is the filter `Remove`); the base salary is unchanged; a new array is allocated and older arrays are untouched |
| QuadroColaboradores.Colaboradores | tarefa-1/QuadroColaboradores.ts:22-24 | the getter returns the reference of the live current array (not a copy), whose contents are the roster |
| QuadroColaboradores.AliasVeContratacao | tarefa-1/QuadroColaboradores.ts:12-14 | a reference taken from the getter sees a later hire, because the push is in place |
| QuadroColaboradores.AliasNaoVeDemissao | tarefa-1/QuadroColaboradores.ts:16-20 | a reference taken from the getter still reads the old contents after a firing, because the filter builds a new array |
| QuadroColaboradores.DemitirAusenteDesligaAlias | tarefa-1/QuadroColaboradores.ts:12-24 | firing an employee who is not on the roster keeps the contents but replaces the array, so a reference taken earlier no longer sees later hires |
| QuadroColaboradores.RemoveAbsent | tarefa-1/QuadroColaboradores.ts:17-19 | filtering out a handle that does not occur returns the list unchanged |
| QuadroColaboradores.RemoveAppend | tarefa-1/QuadroColaboradores.ts:17-19 | the filter distributes over concatenation, so the survivors keep their relative order |
| QuadroColaboradores.RemoveIdempotent | tarefa-1/QuadroColaboradores.ts:17-19 | firing the same employee twice has the effect of firing once |
| QuadroColaboradores.DemitirAposContratar | tarefa-1/QuadroColaboradores.ts:12-19 | firing an employee just hired removes every occurrence, earlier ones too, and leaves the rest in order |
| Pagamento.Pagar | tarefa-1/Pagamento.ts:7-12 | after paying, the employee's balance is the calculator's salary for their own role; name and role are unchanged; every other employee is unchanged and no employee appears or disappears |
| Pagamento.PagarIgnoraSaldoAnterior | tarefa-1/Pagamento.ts:8-11 | the result of paying does not depend on the previous balance |
| Pagamento.PagarIdempotente | tarefa-1/Pagamento.ts:8-11 | paying twice gives the same state as paying once |
| GerarRelatorio.Projeta | tarefa-1/GerarRelatorio.ts:11-17 | one entry per employee, entry i belongs to employee i, and it copies name and role and carries the calculator's salary for that role |
| GerarRelatorio.GerarJSON | tarefa-1/GerarRelatorio.ts:10-19 | the report reads the array through the reference it holds, at the time of the call, with one entry per element in order |
| GerarRelatorio.ProjetaAppend | tarefa-1/GerarRelatorio.ts:11-17 | the report of a concatenation is the concatenation of the reports, so hiring one more employee appends exactly one entry |
| GerarRelatorio.ProjetaIgnoraPagamento | tarefa-1/GerarRelatorio.ts:12-16 | the report ignores balances, so a report taken before a payment equals one taken after |
| FolhaCenario.CenarioPrincipal | tarefa-1/main.ts:8-28 | with the generator built before the three hires, the report lists José, Maria and João in order with their calculated salaries; paying José sets only his balance, to the salary of his role |
| FolhaCenario.RelatorioAposDemitir | tarefa-1/main.ts:10-13 | a generator built on the roster's array still reports an employee fired later, while the roster itself no longer lists them |
| InMemoryRepository.Novo | tarefa-5/repositories/InMemoryRepository.ts:7-9 | a new sequence store lists no client |
| InMemoryRepository.ListaClientes | tarefa-5/repositories/InMemoryRepository.ts:14-16 | returns the stored sequence itself, in insertion order |
| InMemoryRepository.AdicionaCliente | tarefa-5/repositories/InMemoryRepository.ts:11-13 | adding appends the client at the end, keeps earlier entries, and keeps duplicates (the client's multiplicity grows by one) |
| PostgresRepository.Novo | tarefa-5/repositories/PostgresRepository.ts:7-9 | a new map store holds no client |
| PostgresRepository.Add | tarefa-5/repositories/PostgresRepository.ts:19-21 | after adding, the client is stored under its id; the key set gains that id; the entry of every other id is unchanged; no other client with that id remains |
| PostgresRepository.AdicionaCliente | tarefa-5/repositories/PostgresRepository.ts:11-13 | adding through the interface name has exactly the effect of `add` |
| PostgresRepository.List | tarefa-5/repositories/PostgresRepository.ts:23-33 | whatever order the keys are visited in, the list holds each stored client exactly once and nothing else, so its length is the number of keys |
| PostgresRepository.ListaClientes | tarefa-5/repositories/PostgresRepository.ts:15-17 | listing through the interface name gives the same promise as `list` |
| PostgresRepository.PermutacaoContem | tarefa-5/repositories/PostgresRepository.ts:23-33 | a client is in the list exactly when the store holds it |
| ClienteRepository.AdicionaCliente | tarefa-5/controller/ClienteController.ts:8 | through the interface, adding does exactly the implementation's own add (append at the end for the sequence store, `add` for the map store), lists the new client afterwards, keeps listing every earlier client with a different id, and lists no other new client |
| ClienteRepository.ListaClientes | tarefa-5/controller/ClienteController.ts:11 | through the interface, listing gives each implementation's own promise (insertion order for the sequence store, each stored client once for the map store) and lists exactly the stored clients |
| ClienteRepository.UltimoComId | tarefa-5/repositories/PostgresRepository.ts:20 | reference definition of last-write-wins: the client returned has the id and occurs at a position after which no client has that id |
| ClienteRepository.InMemoryAdicionados | tarefa-5/repositories/InMemoryRepository.ts:11-16 | a sequence store built by adding `cs` holds exactly `cs`, so it lists the clients in insertion order, duplicates included |
| ClienteRepository.PostgresAdicionados | tarefa-5/repositories/PostgresRepository.ts:19-21 | a map store built by adding `cs` has exactly the ids of `cs` as keys, and each maps to the last client added with that id |
| ClienteRepository.ListaPostgresContaIds | tarefa-5/repositories/PostgresRepository.ts:23-33 | the map store lists as many clients as distinct ids were added, and exactly the last client of each id |
| ClienteRepository.MesmoIdSobrescreve | tarefa-5/repositories/PostgresRepository.ts:19-21 | adding a second client with the same id lists the second and no longer the first |
| ClienteController.AdicionaCliente | tarefa-5/controller/ClienteController.ts:7-9 | the controller's add is exactly the injected repository's add, so each implementation's add promise and the listing promises hold through it |
| ClienteController.ListaClientes | tarefa-5/controller/ClienteController.ts:10-12 | the controller's list carries the injected implementation's promise unchanged |
| ClienteController.CenarioInMemory | tarefa-5/controller/ClienteController.ts:7-12 | with the sequence store injected, adding c1 then c2 lists exactly `[c1, c2]` |
| ClienteController.CenarioPostgres | tarefa-5/controller/ClienteController.ts:7-12 | with the map store injected, adding two clients with the same id lists exactly the second |

## Left out

- Console output and the `JSON.stringify` step of `gerarJSON`: the report is modelled as the sequence of records before serialisation.
- The salary table (`CalcularSalario`) and the role enumeration (`Cargos`) are not part of this model. `Cargo` is an abstract type and the calculator is any total function from role to integer.
- `Colaborador.ts`, `Cliente.ts` and `IClienteRepository.ts` are not part of this model. The employee record follows its use in `main.ts`. `Colaborador.ts` is not available, so the zero starting balance in `Colaborador.NovoColaborador` is an assumption. The client record is an integer `id` plus an opaque map of attributes.
- Numbers are JavaScript doubles in the source. Ids, salaries and balances are unbounded integers here.
- PostgresRepository.List: the enumeration order of JavaScript object keys, the coercion of numeric keys to strings and the `hasOwnProperty` filter are not modelled. The order is left open, and the contract promises only that each stored client appears once.
- Clients are modelled as values, not object references: two distinct client objects with equal fields cannot be told apart. No operation of the stores compares clients, so nothing they compute depends on this.
- The interface is modelled as the closed set of its two implementations, not as an open interface that any class could implement.
- Mutation by a caller through the live arrays that `InMemoryRepository.listaClientes` and the roster's getter return is not modelled. The roster's in-place versus new-array distinction is modelled, as seen through a held reference.

=== FILE: cliente.dfy ===
/** The client record of the registry exercise. Only `id` matters to the stores; the other
    attributes are carried along unchanged. */
module Cliente {
  datatype Cliente = Cliente(id: int, atributos: map<string, string>)
}

=== FILE: cliente_controller.dfy ===
/** The client controller (`ClienteController`): holds the injected repository and nothing
    else, and forwards both operations to it unchanged. */
module ClienteController {
  import opened Cliente
  import Repo = ClienteRepository
  import InMemoryRepository
  import PostgresRepository

  datatype ClienteController = ClienteController(repository: Repo.ClienteRepository)

  /** `adicionaCliente`: the repository's own `adicionaCliente`, with no validation. */
  function AdicionaCliente(ctl: ClienteController, c: Cliente): (r: ClienteController)
    ensures r.repository == Repo.AdicionaCliente(ctl.repository, c)
    ensures Repo.Listado(r.repository, c)
    ensures Repo.AdicaoDoRepositorio(ctl.repository, c, r.repository)
    ensures forall d :: Repo.Listado(ctl.repository, d) && d.id != c.id ==> Repo.Listado(r.repository, d)
    ensures forall d :: Repo.Listado(r.repository, d) ==> Repo.Listado(ctl.repository, d) || d == c
  {
    ClienteController(Repo.AdicionaCliente(ctl.repository, c))
  }

  /** `listaClientes`: the repository's own list, so each implementation's promise carries
      over through the controller. */
  method ListaClientes(ctl: ClienteController) returns (clientes: seq<Cliente>)
    ensures Repo.ListaDoRepositorio(ctl.repository, clientes)
    ensures forall c :: c in clientes <==> Repo.Listado(ctl.repository, c)
  {
    clientes := Repo.ListaClientes(ctl.repository);
  }

  /** With the sequence store injected, adding `c1` then `c2` lists `[c1, c2]`. */
  method CenarioInMemory(c1: Cliente, c2: Cliente) returns (clientes: seq<Cliente>)
    ensures clientes == [c1, c2]
  {
    var ctl := ClienteController(Repo.InMemory(InMemoryRepository.Novo()));
    ctl := AdicionaCliente(ctl, c1);
    ctl := AdicionaCliente(ctl, c2);
    clientes := ListaClientes(ctl);
  }

  /** With the map store injected, adding two clients with the same id lists only the second. */
  method CenarioPostgres(c1: Cliente, c2: Cliente) returns (clientes: seq<Cliente>)
    requires c1.id == c2.id
    ensures clientes == [c2]
  {
    var ctl := ClienteController(Repo.Postgres(PostgresRepository.Novo()));
    ctl := AdicionaCliente(ctl, c1);
    ctl := AdicionaCliente(ctl, c2);
    clientes := ListaClientes(ctl);
    assert ctl.repository.postgres.db == map[c2.id := c2];
    assert clientes[0] in clientes;
  }
}

=== FILE: cliente_repository.dfy ===
/** The client repository interface (`IClienteRepository`: add a client, list the clients) and
    its two implementations. The set of implementations is closed, so the interface is a sum
    of the two stores; each operation dispatches to the store it holds. */
module ClienteRepository {
  import opened Cliente
  import InMemoryRepository
  import PostgresRepository

  datatype ClienteRepository =
    | InMemory(memoria: InMemoryRepository.InMemoryRepository)
    | Postgres(postgres: PostgresRepository.PostgresRepository)

  /** `c` is among the clients the store would list. */
  predicate Listado(r: ClienteRepository, c: Cliente)
  {
    match r
    case InMemory(m) => c in InMemoryRepository.ListaClientes(m)
    case Postgres(p) => PostgresRepository.Guardado(p.db, c)
  }

  /** What each implementation promises of the list it returns: the sequence store gives its
      contents in insertion order, the map store each stored client once, in any order. */
  ghost predicate ListaDoRepositorio(r: ClienteRepository, clientes: seq<Cliente>)
  {
    match r
    case InMemory(m) => clientes == m.db
    case Postgres(p) => |clientes| == |p.db| && PostgresRepository.PermutacaoDosValores(clientes, p.db)
  }

  /** What each implementation promises of an add: the sequence store appends `c` at the end,
      the map store does exactly its `add`, and the implementation stays the same. */
  ghost predicate AdicaoDoRepositorio(r: ClienteRepository, c: Cliente, r': ClienteRepository)
  {
    match r
    case InMemory(m) => r'.InMemory? && r'.memoria.db == m.db + [c]
    case Postgres(p) => r'.Postgres? && r'.postgres == PostgresRepository.Add(p, c)
  }

  /** `adicionaCliente` of the injected implementation. Both list the new client afterwards,
      still list every earlier client with a different id, and list nothing else new. */
  function AdicionaCliente(r: ClienteRepository, c: Cliente): (r': ClienteRepository)
    ensures AdicaoDoRepositorio(r, c, r')
    ensures Listado(r', c)
    ensures forall d :: Listado(r, d) && d.id != c.id ==> Listado(r', d)
    ensures forall d :: Listado(r', d) ==> Listado(r, d) || d == c
  {
    match r
    case InMemory(m) => InMemory(InMemoryRepository.AdicionaCliente(m, c))
    case Postgres(p) => Postgres(PostgresRepository.AdicionaCliente(p, c))
  }

  /** `listaClientes` of the injected implementation. */
  method ListaClientes(r: ClienteRepository) returns (clientes: seq<Cliente>)
    ensures ListaDoRepositorio(r, clientes)
    ensures forall c :: c in clientes <==> Listado(r, c)
  {
    match r
    case InMemory(m) =>
      clientes := InMemoryRepository.ListaClientes(m);
    case Postgres(p) =>
      clientes := PostgresRepository.ListaClientes(p);
      forall c | true
        ensures c in clientes <==> Listado(r, c)
      {
        PostgresRepository.PermutacaoContem(clientes, p.db, c);
      }
  }

  /** The store after adding every client of `cs`, first to last. */
  function Adicionados(r: ClienteRepository, cs: seq<Cliente>): ClienteRepository
  {
    if |cs| == 0 then r else AdicionaCliente(Adicionados(r, cs[..|cs| - 1]), cs[|cs| - 1])
  }

  /** The ids occurring in `cs`. */
  function Ids(cs: seq<Cliente>): set<int>
  {
    set c | c in cs :: c.id
  }

  /** The last client in `cs` with the given id. */
  function UltimoComId(cs: seq<Cliente>, id: int): (c: Cliente)
    requires id in Ids(cs)
    ensures c.id == id
    ensures exists i :: 0 <= i < |cs| && cs[i] == c && forall j :: i < j < |cs| ==> cs[j].id != id
  {
    var n := |cs| - 1;
    if cs[n].id == id then cs[n]
    else
      assert cs == cs[..n] + [cs[n]];
      assert id in Ids(cs[..n]);
      UltimoComId(cs[..n], id)
  }

  /** The sequence store built from `cs` holds exactly `cs`, so it lists `cs` in insertion
      order and keeps duplicates. */
  lemma {:induction false} InMemoryAdicionados(cs: seq<Cliente>)
    ensures Adicionados(InMemory(InMemoryRepository.Novo()), cs) == InMemory(InMemoryRepository.InMemoryRepository(cs))
  {
    if |cs| > 0 {
      InMemoryAdicionados(cs[..|cs| - 1]);
      assert cs == cs[..|cs| - 1] + [cs[|cs| - 1]];
    }
  }

  /** The map store built from `cs` has one entry per distinct id of `cs`, and each entry is the
      last client added with that id. */
  lemma {:induction false} PostgresAdicionados(cs: seq<Cliente>)
    ensures Adicionados(Postgres(PostgresRepository.Novo()), cs).Postgres?
    ensures Adicionados(Postgres(PostgresRepository.Novo()), cs).postgres.db.Keys == Ids(cs)
    ensures forall k :: k in Ids(cs) ==>
      Adicionados(Postgres(PostgresRepository.Novo()), cs).postgres.db[k] == UltimoComId(cs, k)
  {
    if |cs| > 0 {
      var n := |cs| - 1;
      PostgresAdicionados(cs[..n]);
      assert cs == cs[..n] + [cs[n]];
      assert Ids(cs) == Ids(cs[..n]) + {cs[n].id};
      forall k | k in Ids(cs)
        ensures Adicionados(Postgres(PostgresRepository.Novo()), cs).postgres.db[k] == UltimoComId(cs, k)
      {
        if k != cs[n].id {
          assert k in Ids(cs[..n]);
        }
      }
    }
  }

  /** The map store lists as many clients as distinct ids were added. */
  method ListaPostgresContaIds(cs: seq<Cliente>) returns (clientes: seq<Cliente>)
    ensures |clientes| == |Ids(cs)|
    ensures forall c :: c in clientes <==> c.id in Ids(cs) && c == UltimoComId(cs, c.id)
  {
    var r := Adicionados(Postgres(PostgresRepository.Novo()), cs);
    PostgresAdicionados(cs);
    clientes := ListaClientes(r);
  }

  /** Adding `c2` to the map store after `c1` with the same id replaces `c1`. */
  lemma MesmoIdSobrescreve(p: PostgresRepository.PostgresRepository, c1: Cliente, c2: Cliente)
    requires c1.id == c2.id && c1 != c2
    ensures Listado(AdicionaCliente(AdicionaCliente(Postgres(p), c1), c2), c2)
    ensures !Listado(AdicionaCliente(AdicionaCliente(Postgres(p), c1), c2), c1)
  {
  }
}

=== FILE: colaborador.dfy ===
/** Employees of the payroll exercise and the object identity that the roster relies on.

    A TypeScript `Colaborador` is a mutable object compared by reference. The model keeps the
    objects in an explicit heap, `Equipe`, that maps a `Handle` (the reference) to the record
    of the object's current field values. Two handles may hold equal records and still be
    different employees.
 */
module Colaborador {

  /** A role tag. The enumeration of roles is not part of this model, so the type is left abstract. */
  type Cargo

  /** The salary calculator: a total function from role to amount, whatever its table says. */
  type Calculadora = Cargo -> int

  /** The reference of an employee object. */
  type Handle = nat

  /** The fields of one employee object. */
  datatype Colaborador = Colaborador(nome: string, cargo: Cargo, saldo: int)

  /** The employee objects that exist, by reference. */
  type Equipe = map<Handle, Colaborador>

  /** A freshly constructed employee: its balance is zero. */
  function NovoColaborador(nome: string, cargo: Cargo): (c: Colaborador)
    ensures c.nome == nome && c.cargo == cargo
    ensures c.saldo == 0
  {
    Colaborador(nome, cargo, 0)
  }

  /** Every handle in `lista` refers to an existing employee object. */
  predicate Existem(lista: seq<Handle>, equipe: Equipe)
  {
    forall i :: 0 <= i < |lista| ==> lista[i] in equipe
  }
}

=== FILE: folha_cenario.dfy ===
/** The payroll wiring of `main.ts` as one statement: a report generator built on the roster's
    array before anyone is hired, three hires, a report, then a payment. */
module FolhaCenario {
  import opened Colaborador
  import opened QuadroColaboradores
  import GerarRelatorio
  import Pagamento

  /** Hiring José, Maria and João after the generator took the roster's array: the report
      lists all three, in hiring order, with their calculated salaries; paying José sets his
      balance to the salary of his role and leaves the other two untouched. */
  lemma CenarioPrincipal(calcular: Calculadora, estagiario: Cargo, junior: Cargo, pleno: Cargo,
                         jose: Handle, maria: Handle, joao: Handle, equipe: Equipe)
    requires jose != maria && maria != joao && jose != joao
    requires jose in equipe && equipe[jose] == NovoColaborador("José", estagiario)
    requires maria in equipe && equipe[maria] == NovoColaborador("Maria", junior)
    requires joao in equipe && equipe[joao] == NovoColaborador("João", pleno)
    ensures
      var q0 := Novo();
      var g := GerarRelatorio.GerarRelatorio(Colaboradores(q0), calcular);
      var q := Contratar(Contratar(Contratar(q0, jose), maria), joao);
      && g.colaboradores < |q.arrays|
      && Existem(Conteudo(q, g.colaboradores), equipe)
      && GerarRelatorio.GerarJSON(g, q, equipe) == [
           GerarRelatorio.Entrada("José", estagiario, calcular(estagiario)),
           GerarRelatorio.Entrada("Maria", junior, calcular(junior)),
           GerarRelatorio.Entrada("João", pleno, calcular(pleno))]
    ensures
      var pago := Pagamento.Pagar(Pagamento.Pagamento(calcular), equipe, jose);
      && pago[jose] == Colaborador("José", estagiario, calcular(estagiario))
      && pago[maria] == equipe[maria] && pago[joao] == equipe[joao]
  {
  }

  /** A generator built on the roster's array keeps reporting an employee fired afterwards,
      because firing gives the roster a new array and the generator still holds the old one. */
  lemma RelatorioAposDemitir(q: Quadro, h: Handle, equipe: Equipe, calcular: Calculadora)
    requires h in Lista(q) && Existem(Lista(q), equipe)
    ensures
      var g := GerarRelatorio.GerarRelatorio(Colaboradores(q), calcular);
      var q' := Demitir(q, h);
      && g.colaboradores < |q'.arrays|
      && Existem(Conteudo(q', g.colaboradores), equipe)
      && GerarRelatorio.EntradaDe(equipe[h], calcular) in GerarRelatorio.GerarJSON(g, q', equipe)
      && h !in Lista(q')
  {
  }
}

=== FILE: gerar_relatorio.dfy ===
/** The report generator (`GerarRelatorio`): projects a list of employees onto
    `{nome, cargo, salario}` records, one per employee, in list order. The textual
    serialisation of the records is not part of this model. */
module GerarRelatorio {
  import opened Colaborador
  import QuadroColaboradores
  import Pagamento

  /** One report entry. */
  datatype Entrada = Entrada(nome: string, cargo: Cargo, salario: int)

  /** The generator holds the reference of an employee array (not a copy of it) and the
      salary calculator. */
  datatype GerarRelatorio = GerarRelatorio(
    colaboradores: QuadroColaboradores.ArrayRef,
    servicoCalculaSalario: Calculadora)

  /** The entry an employee object contributes. */
  function EntradaDe(c: Colaborador, calcular: Calculadora): Entrada
  {
    Entrada(c.nome, c.cargo, calcular(c.cargo))
  }

  /** The `map` step of `gerarJSON`. */
  function Projeta(lista: seq<Handle>, equipe: Equipe, calcular: Calculadora): (r: seq<Entrada>)
    requires Existem(lista, equipe)
    ensures |r| == |lista|
    ensures forall i :: 0 <= i < |lista| ==>
      && r[i].nome == equipe[lista[i]].nome
      && r[i].cargo == equipe[lista[i]].cargo
      && r[i].salario == calcular(equipe[lista[i]].cargo)
  {
    if |lista| == 0 then []
    else [EntradaDe(equipe[lista[0]], calcular)] + Projeta(lista[1..], equipe, calcular)
  }

  /** `gerarJSON` without the serialisation: reads the array through the reference it was
      given, as it is at the time of the call. */
  function GerarJSON(g: GerarRelatorio, q: QuadroColaboradores.Quadro, equipe: Equipe): (r: seq<Entrada>)
    requires g.colaboradores < |q.arrays|
    requires Existem(QuadroColaboradores.Conteudo(q, g.colaboradores), equipe)
    ensures |r| == |QuadroColaboradores.Conteudo(q, g.colaboradores)|
    ensures forall i :: 0 <= i < |r| ==>
      var c := equipe[QuadroColaboradores.Conteudo(q, g.colaboradores)[i]];
      r[i] == Entrada(c.nome, c.cargo, g.servicoCalculaSalario(c.cargo))
  {
    Projeta(QuadroColaboradores.Conteudo(q, g.colaboradores), equipe, g.servicoCalculaSalario)
  }

  /** The projection of a concatenation is the concatenation of the projections, so hiring
      one more employee appends exactly one entry. */
  lemma ProjetaAppend(a: seq<Handle>, b: seq<Handle>, equipe: Equipe, calcular: Calculadora)
    requires Existem(a, equipe) && Existem(b, equipe)
    ensures Existem(a + b, equipe)
    ensures Projeta(a + b, equipe, calcular) == Projeta(a, equipe, calcular) + Projeta(b, equipe, calcular)
  {
  }

  /** The report reads only `nome` and `cargo`: a report taken before paying anyone equals
      one taken after. */
  lemma ProjetaIgnoraPagamento(lista: seq<Handle>, equipe: Equipe, calcular: Calculadora,
                                               p: Pagamento.Pagamento, h: Handle)
    requires Existem(lista, equipe) && h in equipe
    ensures Existem(lista, Pagamento.Pagar(p, equipe, h))
    ensures Projeta(lista, Pagamento.Pagar(p, equipe, h), calcular) == Projeta(lista, equipe, calcular)
  {
  }
}

=== FILE: in_memory_repository.dfy ===
/** The sequence-backed client store (`InMemoryRepository`): an append-only list. */
module InMemoryRepository {
  import opened Cliente

  datatype InMemoryRepository = InMemoryRepository(db: seq<Cliente>)

  /** The constructor: a store that lists no clients. */
  function Novo(): (r: InMemoryRepository)
    ensures forall c :: c !in ListaClientes(r)
  {
    InMemoryRepository([])
  }

  /** `adicionaCliente`: appends `c`, with no de-duplication by id or by value. */
  function AdicionaCliente(r: InMemoryRepository, c: Cliente): (r': InMemoryRepository)
    ensures |r'.db| == |r.db| + 1
    ensures r'.db[|r.db|] == c
    ensures r'.db[..|r.db|] == r.db
    ensures multiset(r'.db)[c] == multiset(r.db)[c] + 1
  {
    var db := r.db + [c];
    assert db[..|r.db|] == r.db;
    assert multiset(db) == multiset(r.db) + multiset{c};
    InMemoryRepository(db)
  }

  /** `listaClientes`: the stored list itself, in insertion order. */
  function ListaClientes(r: InMemoryRepository): (clientes: seq<Cliente>)
    ensures clientes == r.db
  {
    r.db
  }
}

=== FILE: pagamento.dfy ===
/** The payment processor (`Pagamento`): overwrites one employee's balance with the salary
    the calculator gives for that employee's own role. */
module Pagamento {
  import opened Colaborador

  /** The processor holds only its salary calculator. */
  datatype Pagamento = Pagamento(servicoCalculaSalario: Calculadora)

  /** `pagar`: the employee behind `h` gets `saldo := calcular(cargo)`. */
  function Pagar(p: Pagamento, equipe: Equipe, h: Handle): (r: Equipe)
    requires h in equipe
    ensures r.Keys == equipe.Keys
    ensures r[h].saldo == p.servicoCalculaSalario(equipe[h].cargo)
    ensures r[h].nome == equipe[h].nome && r[h].cargo == equipe[h].cargo
    ensures forall k :: k in equipe && k != h ==> r[k] == equipe[k]
  {
    var salarioColaborador := p.servicoCalculaSalario(equipe[h].cargo);
    equipe[h := equipe[h].(saldo := salarioColaborador)]
  }

  /** The previous balance plays no part: two states that differ only in `h`'s balance are
      paid to the same state. */
  lemma PagarIgnoraSaldoAnterior(p: Pagamento, equipe: Equipe, h: Handle, saldo: int)
    requires h in equipe
    ensures Pagar(p, equipe[h := equipe[h].(saldo := saldo)], h) == Pagar(p, equipe, h)
  {
  }

  /** Paying twice leaves the same state as paying once. */
  lemma PagarIdempotente(p: Pagamento, equipe: Equipe, h: Handle)
    requires h in equipe
    ensures Pagar(p, Pagar(p, equipe, h), h) == Pagar(p, equipe, h)
  {
  }
}

=== FILE: postgres_repository.dfy ===
/** The map-backed client store (`PostgresRepository`): an in-memory object keyed by client id,
    standing in for a database. A later client with the same id replaces the earlier one. */
module PostgresRepository {
  import opened Cliente

  /** The store's contents: every client is kept under its own id. */
  type Db = db: map<int, Cliente> | forall k :: k in db ==> db[k].id == k

  datatype PostgresRepository = PostgresRepository(db: Db)

  /** `c` is one of the values the store holds. */
  predicate Guardado(db: Db, c: Cliente)
  {
    c.id in db && db[c.id] == c
  }

  /** `clientes` holds each stored client exactly once and nothing else, in some order. */
  ghost predicate PermutacaoDosValores(clientes: seq<Cliente>, db: Db)
  {
    forall c :: multiset(clientes)[c] == if Guardado(db, c) then 1 else 0
  }

  /** The constructor: a store that holds no clients. */
  function Novo(): (r: PostgresRepository)
    ensures forall c :: !Guardado(r.db, c)
  {
    PostgresRepository(map[])
  }

  /** `add`: stores `c` under `c.id`, replacing any earlier client with that id. */
  function Add(r: PostgresRepository, c: Cliente): (r': PostgresRepository)
    ensures r'.db.Keys == r.db.Keys + {c.id}
    ensures Guardado(r'.db, c)
    ensures forall k :: k in r.db && k != c.id ==> k in r'.db && r'.db[k] == r.db[k]
    ensures forall d: Cliente :: d.id == c.id && d != c ==> !Guardado(r'.db, d)
  {
    PostgresRepository(r.db[c.id := c])
  }

  /** `adicionaCliente`: exactly `add`. */
  function AdicionaCliente(r: PostgresRepository, c: Cliente): (r': PostgresRepository)
    ensures r' == Add(r, c)
  {
    Add(r, c)
  }

  /** `list`: a fresh list of the stored clients, one per key. The order in which keys are
      visited is left open: any key still to be visited may come next. */
  method List(r: PostgresRepository) returns (clientes: seq<Cliente>)
    ensures |clientes| == |r.db|
    ensures PermutacaoDosValores(clientes, r.db)
  {
    clientes := [];
    var pendentes := r.db.Keys;
    while pendentes != {}
      invariant pendentes <= r.db.Keys
      invariant |clientes| == |r.db.Keys| - |pendentes|
      invariant forall c :: multiset(clientes)[c] ==
                            if Guardado(r.db, c) && c.id !in pendentes then 1 else 0
      decreases |pendentes|
    {
      var chave :| chave in pendentes;
      clientes := clientes + [r.db[chave]];
      pendentes := pendentes - {chave};
    }
  }

  /** `listaClientes`: exactly `list`. */
  method ListaClientes(r: PostgresRepository) returns (clientes: seq<Cliente>)
    ensures |clientes| == |r.db|
    ensures PermutacaoDosValores(clientes, r.db)
  {
    clientes := List(r);
  }

  /** A permutation of the values lists a client exactly when the store holds it. */
  lemma PermutacaoContem(clientes: seq<Cliente>, db: Db, c: Cliente)
    requires PermutacaoDosValores(clientes, db)
    ensures c in clientes <==> Guardado(db, c)
  {
  }
}

=== FILE: quadro_colaboradores.dfy ===
/** The employee roster (`QuadroColaboradores`): an ordered array of employee references.

    Hiring pushes onto the array the roster already owns, while firing replaces it with a new,
    filtered array. To make that difference observable, the model keeps every array the roster
    has allocated, indexed by its reference (`ArrayRef`), together with the reference of the
    current one. A caller that took the array from the getter earlier keeps reading the old
    reference.
 */
module QuadroColaboradores {
  import opened Colaborador

  /** The reference of an array allocated by the roster. */
  type ArrayRef = nat

  /** The default base salary of the constructor. */
  const SalarioBasePadrao: int := 1000

  datatype QuadroRep = QuadroRep(arrays: seq<seq<Handle>>, atual: ArrayRef, salarioBase: int)

  /** A roster whose current array reference is one it allocated. */
  type Quadro = q: QuadroRep | q.atual < |q.arrays| witness QuadroRep([[]], 0, SalarioBasePadrao)

  /** The contents of the array behind reference `a`, as seen by whoever holds `a`. */
  function Conteudo(q: Quadro, a: ArrayRef): seq<Handle>
    requires a < |q.arrays|
  {
    q.arrays[a]
  }

  /** The roster's current employees, in hiring order. */
  function Lista(q: Quadro): seq<Handle>
  {
    q.arrays[q.atual]
  }

  /** `s` with every occurrence of `h` removed, the rest kept in order (`Array.prototype.filter`
      with `!==`). */
  function Remove(s: seq<Handle>, h: Handle): (r: seq<Handle>)
    ensures h !in r
    ensures forall x :: x in r <==> x in s && x != h
    ensures forall x :: x != h ==> multiset(r)[x] == multiset(s)[x]
    ensures |r| == |s| - multiset(s)[h]
  {
    if |s| == 0 then []
    else
      assert s == [s[0]] + s[1..];
      if s[0] == h then Remove(s[1..], h) else [s[0]] + Remove(s[1..], h)
  }

  /** The constructor: an empty roster with the given base salary (1000 when omitted). */
  function Novo(salarioBase: int := SalarioBasePadrao): (q: Quadro)
    ensures |Lista(q)| == 0
    ensures q.salarioBase == salarioBase
  {
    QuadroRep([[]], 0, salarioBase)
  }

  /** `contratar`: pushes `h` onto the current array, in place. */
  function Contratar(q: Quadro, h: Handle): (r: Quadro)
    ensures |Lista(r)| == |Lista(q)| + 1
    ensures Lista(r)[|Lista(q)|] == h
    ensures Lista(r)[..|Lista(q)|] == Lista(q)
    ensures multiset(Lista(r))[h] == multiset(Lista(q))[h] + 1
    ensures r.salarioBase == q.salarioBase
    // the array reference is kept: an alias of the current array sees the new employee
    ensures r.atual == q.atual && |r.arrays| == |q.arrays|
    ensures forall a :: 0 <= a < |q.arrays| && a != q.atual ==> Conteudo(r, a) == Conteudo(q, a)
  {
    var novo := Lista(q) + [h];
    assert novo[..|Lista(q)|] == Lista(q);
    assert multiset(novo) == multiset(Lista(q)) + multiset{h};
    QuadroRep(q.arrays[q.atual := novo], q.atual, q.salarioBase)
  }

  /** `demitir`: replaces the current array by a new one without any reference-equal entry. */
  function Demitir(q: Quadro, h: Handle): (r: Quadro)
    ensures h !in Lista(r)
    ensures forall x :: x in Lista(r) <==> x in Lista(q) && x != h
    ensures forall x :: x != h ==> multiset(Lista(r))[x] == multiset(Lista(q))[x]
    ensures h !in Lista(q) ==> Lista(r) == Lista(q)
    // the survivors keep their relative order (see RemoveAppend)
    ensures Lista(r) == Remove(Lista(q), h)
    ensures r.salarioBase == q.salarioBase
    // a new array is allocated; every array allocated before, the old current one included,
    // is left as it was, so an alias of the old array still lists `h`
    ensures r.atual == |q.arrays| && r.arrays[..|q.arrays|] == q.arrays
  {
    var nova := Remove(Lista(q), h);
    assert h !in Lista(q) ==> nova == Lista(q) by {
      if h !in Lista(q) { RemoveAbsent(Lista(q), h); }
    }
    QuadroRep(q.arrays + [nova], |q.arrays|, q.salarioBase)
  }

  /** The `colaboradores` getter: the reference of the live current array, not a copy. */
  function Colaboradores(q: Quadro): (a: ArrayRef)
    ensures a == q.atual
    ensures a < |q.arrays| && Conteudo(q, a) == Lista(q)
  {
    q.atual
  }

  /** A reference taken from the getter sees a later hire. */
  lemma AliasVeContratacao(q: Quadro, h: Handle)
    ensures Conteudo(Contratar(q, h), Colaboradores(q)) == Lista(q) + [h]
  {
  }

  /** A reference taken from the getter does not see a later firing: it still reads the old array. */
  lemma AliasNaoVeDemissao(q: Quadro, h: Handle)
    ensures Colaboradores(q) < |Demitir(q, h).arrays|
    ensures Conteudo(Demitir(q, h), Colaboradores(q)) == Lista(q)
  {
  }

  /** Firing an employee who is not on the roster keeps its contents but still replaces its
      array, so a reference taken earlier misses every later hire. */
  lemma DemitirAusenteDesligaAlias(q: Quadro, h: Handle, h2: Handle)
    requires h !in Lista(q)
    ensures Lista(Demitir(q, h)) == Lista(q)
    ensures Lista(Contratar(Demitir(q, h), h2)) == Lista(q) + [h2]
    ensures Colaboradores(q) < |Contratar(Demitir(q, h), h2).arrays|
    ensures Conteudo(Contratar(Demitir(q, h), h2), Colaboradores(q)) == Lista(q)
  {
  }

  /** Removing an employee that is not in the list changes nothing. */
  lemma {:induction false} RemoveAbsent(s: seq<Handle>, h: Handle)
    requires h !in s
    ensures Remove(s, h) == s
  {
    if |s| > 0 {
      RemoveAbsent(s[1..], h);
    }
  }

  /** The filter distributes over concatenation: the survivors keep their relative order. */
  lemma {:induction false} RemoveAppend(a: seq<Handle>, b: seq<Handle>, h: Handle)
    ensures Remove(a + b, h) == Remove(a, h) + Remove(b, h)
  {
    if |a| == 0 {
      assert a + b == b;
    } else {
      assert (a + b)[1..] == a[1..] + b;
      RemoveAppend(a[1..], b, h);
    }
  }

  /** Firing twice is the same as firing once. */
  lemma {:induction false} RemoveIdempotent(s: seq<Handle>, h: Handle)
    ensures Remove(Remove(s, h), h) == Remove(s, h)
  {
    RemoveAbsent(Remove(s, h), h);
  }

  /** Firing an employee hired twice removes both occurrences; the others keep their order. */
  lemma DemitirAposContratar(q: Quadro, h: Handle)
    ensures Lista(Demitir(Contratar(q, h), h)) == Remove(Lista(q), h)
  {
    RemoveAppend(Lista(q), [h], h);
    assert Lista(Contratar(q, h)) == Lista(q) + [h];
  }
}
